=== FILE: README.md ===
# Correlation EM analysis: a Dafny model

This project models the exact integer and byte logic of the workshop's Correlation
Power/EM Analysis (CPA) module, `Jupyter-Notebooks/0.cema.py`, and proves properties of it.
The pipeline attacks a secret key one byte at a time:

- **Hamming weight** (`getHammingWeight`) renders an integer with `format(x, '08b')` and counts its
  '1' digits.
- **Hypothesis matrices** (`genHypoMatrix`, `getHypoMatrices`) hold one matrix per key byte
  position *b*. Each has 256 rows, one per candidate key byte *k*. Entry (*k*, *i*) is the predicted
  leakage `hw(plaintext[i][b] ^ k)`.
- **Synthetic traces** (`genEMTraces`) start from a random noise matrix and add
  `hw(plaintext[i][j] ^ realKey[j])` into time row *j* of column *i*.
- **Correlation and selection** (`buildCorrelationMatrix`, `recoverKey`) correlate every hypothesis
  row with every trace row. For each byte they take `np.unravel_index(C.argmax(), C.shape)` and
  keep the row of that cell as the recovered byte.

Modules, one per component, leaves first:

| file | module | models |
|---|---|---|
| results.dfy | `Results` | the exceptions the source raises, as `Err` values, plus `AllNaN`, which only the corrected NaN-skipping selection produces |
| bits.dfy | `Bits` | Python `^` on non-negative integers, the set-bit count, and their laws |
| hamming.dfy | `Hamming` | `format(x, '08b')` and the counting loop of `getHammingWeight` |
| hypothesis.dfy | `Hypothesis` | `genHypoMatrix` and `getHypoMatrices` as loop methods |
| traces.dfy | `Traces` | `genEMTraces` with the noise matrix as a parameter |
| selection.dfy | `Selection` | numpy's flat `argmax` (NaN is maximal), `unravel_index`, and the NaN-skipping selection |
| statistics.dfy | `Statistics` | the exact integer sum and spread of a row, the quantities `np.cov` divides by |
| recovery.dfy | `Recovery` | `buildCorrelationMatrix` with the Pearson value abstract, and `recoverKey` |
| attack.dfy | `Attack` | the composition the source's functions are written for: both builders, then recovery, against the key that made the traces |

The methods that mirror the source's loops state their results through closed-form
predicates: `IsHypoMatrix`, `IsTraceMatrix`, `IsArgMax` and `IsArgMaxCell`. The lemmas relate
these predicates to each other.

The Pearson coefficient is a parameter `rho`. The model does fix when `np.corrcoef` returns NaN,
for samples small enough that float64 holds them exactly: when either row has fewer than two
samples or no spread around its mean, which for integer rows means the row is constant. numpy's
`argmax` ranks NaN above every number and returns the first NaN. The model keeps that behaviour,
and it drives the finding below. A noise-free run of the composed functions is expected to return
the real key; the code passes NaN straight to `argmax`, and the model follows the code.
`Recovery.Policy` also defines the corrected selection, which skips NaN cells.

## Model

| member | source | states |
|---|---|---|
| Hamming.GetHammingWeight | Jupyter-Notebooks/0.cema.py:12-21 | counting the '1' characters of `format(x, '08b')` gives exactly the number of set bits of x (the independent `PopCount`), and at most 8 for a byte |
| Hamming.CountOnesFormat | Jupyter-Notebooks/0.cema.py:16-21 | the zero padding adds no ones: the '1' digits of the padded rendering are the set bits |
| Hamming.FormatByteLength | Jupyter-Notebooks/0.cema.py:16 | a byte renders as exactly eight characters, each '0' or '1' |
| Bits.PopCountExamples | Jupyter-Notebooks/0.cema.py:12-21 | hw(0) = 0, hw(255) = 8, hw(170) = 4 |
| Bits.PopCountBounded | Jupyter-Notebooks/0.cema.py:12-21 | an n-bit number has at most n set bits |
| Bits.Xor | Jupyter-Notebooks/0.cema.py:55 | Python `^` on non-negative integers, bit by bit; x ^ y is 0 exactly when x = y |
| Hamming.Format08b | Jupyter-Notebooks/0.cema.py:16 | `format(x, '08b')`: the binary digits of x, left-padded with '0' to width 8, unpadded when they are already 8 or more |
| Bits.XorBounded | Jupyter-Notebooks/0.cema.py:55 | the XOR of two n-bit numbers is an n-bit number, so plaintext byte XOR key guess is a byte |
| Bits.XorZero | Jupyter-Notebooks/0.cema.py:55 | x XOR 0 = x |
| Bits.XorAssociates | Jupyter-Notebooks/0.cema.py:55 | XOR is associative |
| Bits.PopCountComplement | Jupyter-Notebooks/0.cema.py:55-58 | flipping all n bits turns a weight w into n - w |
| Hypothesis.GenHypoMatrix | Jupyter-Notebooks/0.cema.py:42-59 | fails with an index error exactly when some plaintext has no byte at the position; otherwise returns 256 rows of N entries, entry (k, i) = hw(p[i][b] XOR k), each in [0, 8] |
| Hypothesis.HypoMatrixRange | Jupyter-Notebooks/0.cema.py:45-58 | every entry of a hypothesis matrix lies in [0, 8] |
| Hypothesis.HypoRowZero | Jupyter-Notebooks/0.cema.py:55-58 | row 0 is the Hamming weight of the unmodified plaintext bytes |
| Hypothesis.HypoComplementRows | Jupyter-Notebooks/0.cema.py:51-58 | the rows for key guesses k and k XOR 255 mirror each other (8 - w against w), the perfectly anti-correlated pair that a raw-value maximum ignores |
| Hypothesis.HypoMatrixUnique | Jupyter-Notebooks/0.cema.py:45-58 | a plaintext matrix and a position determine the hypothesis matrix uniquely |
| Hypothesis.GetHypoMatrices | Jupyter-Notebooks/0.cema.py:69-76 | returns keyLength matrices whose element b is the hypothesis matrix of position b, in index order; fails exactly when some plaintext is shorter than keyLength |
| Traces.GenEMTraces | Jupyter-Notebooks/0.cema.py:90-99 | rejects a noise level below 1 or above 2^63 (the largest sample must fit an int64) when the trace matrix has cells (duration and plaintext count both positive), since randint draws nothing and returns an empty array otherwise; apart from that case, with plaintexts present, fails with an index error exactly when the key outruns the trace duration or a plaintext; otherwise T[j][i] = noise[j][i] + hw(p[i][j] XOR key[j]) for j below the key length, later rows are the noise unchanged, and every sample lies in [0, noiseLevel - 1 + 8] |
| Traces.AddColumnLeakage | Jupyter-Notebooks/0.cema.py:93-97 | one plaintext's pass adds each key byte's leakage into its time row of that plaintext's column and changes nothing else |
| Traces.TraceRange | Jupyter-Notebooks/0.cema.py:90-97 | noise in [0, noiseLevel) gives samples in [0, noiseLevel - 1 + 8] |
| Traces.TraceIsNoisePlusHypothesis | Jupyter-Notebooks/0.cema.py:92-97 | trace row j equals noise row j plus row key[j] of hypothesis matrix j: both builders use one leakage model |
| Traces.UnitNoiseIsZero | Jupyter-Notebooks/0.cema.py:90 | a noise level of 1 can only produce zero noise |
| Traces.NoiselessTraceMatchesHypothesis | Jupyter-Notebooks/0.cema.py:90-97 | with zero noise, trace row j is exactly row key[j] of hypothesis matrix j, and the rows past the key are all zero |
| Selection.ArgMax | Jupyter-Notebooks/0.cema.py:140 | numpy's argmax fails only on an empty array; otherwise it returns the first NaN if there is one, else the first index of the largest number |
| Selection.Scan | Jupyter-Notebooks/0.cema.py:140 | numpy's scan loop (replace the running maximum when `!(a[i] <= max)`, stop at NaN) ends on the index `IsArgMax` describes |
| Selection.NanArgMax | Jupyter-Notebooks/0.cema.py:140 | the corrected selection: the first index of the largest number, ignoring NaN; fails exactly when every entry is NaN |
| Selection.FlattenCell | Jupyter-Notebooks/0.cema.py:140 | cell (r, c) of the row-major flat view sits at index RowStart(r) + c |
| Selection.IndexCell | Jupyter-Notebooks/0.cema.py:140 | every flat index belongs to a cell |
| Selection.IndexOrder | Jupyter-Notebooks/0.cema.py:140 | row-major order on cells is the order of their flat indices |
| Selection.UnravelIndex | Jupyter-Notebooks/0.cema.py:140 | `unravel_index` maps a cell's flat index back to that cell |
| Selection.ArgMaxSelectsCell | Jupyter-Notebooks/0.cema.py:140 | flat argmax then unravel selects the first NaN cell in row-major order, or, with no NaN, the first cell holding the largest value (raw value, not absolute value) |
| Selection.NanArgMaxSelectsCell | Jupyter-Notebooks/0.cema.py:140 | the NaN-skipping selection, unravelled, is the first cell holding the largest defined value |
| Selection.ArgMaxCellUnique | Jupyter-Notebooks/0.cema.py:140 | at most one cell satisfies numpy's selection rule |
| Selection.NanArgMaxCellUnique | Jupyter-Notebooks/0.cema.py:140 | at most one cell satisfies the corrected selection rule |
| Recovery.Correlation | Jupyter-Notebooks/0.cema.py:102-107 | `getCorrelationCoefficient`: NaN exactly when either row has fewer than two samples or a zero spread (sum of squared deviations from its mean), the cases where np.corrcoef divides by a zero variance; equivalently, when either row is degenerate; otherwise the Pearson value rho of the two rows |
| Recovery.DegenerateIffNoSpread | Jupyter-Notebooks/0.cema.py:106 | a row is degenerate (shorter than two, or constant) exactly when it has fewer than two samples or its squared deviations from the mean, scaled by n^2, sum to zero: the variance np.cov computes is zero |
| Recovery.BuildCorrelationMatrix | Jupyter-Notebooks/0.cema.py:110-125 | fails exactly when a hypothesis row and a trace row differ in length; otherwise a len(H) x len(T) matrix whose cell (k, t) is NaN exactly when row k of H or row t of T is degenerate, and otherwise holds rho(H[k], T[t]) |
| Recovery.RecoverByte | Jupyter-Notebooks/0.cema.py:139-141 | one iteration fails exactly on mismatched shapes, an empty matrix, or (corrected policy) no defined cell; otherwise it yields a row index of the hypothesis matrix |
| Recovery.RecoverByteSelects | Jupyter-Notebooks/0.cema.py:139-141 | whenever the rows match in length, both matrices are non-empty and (under the corrected policy) some cell is defined, the recovered byte is the row of the cell the selection rule picks from the correlation matrix |
| Recovery.RecoverKey | Jupyter-Notebooks/0.cema.py:136-144 | fails exactly when the key is longer than the list of hypothesis matrices or some position fails; otherwise returns keyLength bytes, byte j being what position j alone yields |
| Recovery.RecoverKeyFromBytes | Jupyter-Notebooks/0.cema.py:138-141 | bytes are recovered independently: the key is the per-position results in order |
| Recovery.RecoveredKeyIsBytes | Jupyter-Notebooks/0.cema.py:138-144 | from 256-row hypothesis matrices, every byte of a recovered key is in [0, 255] |
| Recovery.SelectsCell | Jupyter-Notebooks/0.cema.py:140 | under either policy, the flat selection, unravelled, is the cell the policy's rule describes |
| Recovery.ShapesAgree | Jupyter-Notebooks/0.cema.py:121 | hypothesis rows and trace rows both have one sample per plaintext, so no correlation fails |
| Recovery.NoiselessTailIsDegenerate | Jupyter-Notebooks/0.cema.py:90-97 | without noise, the trace row just past the key is constant |
| Recovery.DegenerateTraceRowForcesZero | Jupyter-Notebooks/0.cema.py:139-140 | as written, one constant trace row makes every byte 0, whatever the other correlations are |
| Recovery.NoiselessRunRecoversZeroKey | Jupyter-Notebooks/0.cema.py:136-144 | as written, a noise-free run with more time samples than key bytes recovers the all-zero key |
| Recovery.SkippingNaNRecoversDominantRow | Jupyter-Notebooks/0.cema.py:139-140 | with NaN cells skipped, a defined cell that beats every defined cell of every other row decides the byte |
| Recovery.SkippingNaNRecoversKey | Jupyter-Notebooks/0.cema.py:136-144 | with NaN cells skipped, a noise-free run recovers the real key, provided each true cell (key[j], j) correlates strictly better than every defined cell of a wrong key guess |
| Attack.Run | Jupyter-Notebooks/0.cema.py:128-144 | the data flow of the composed functions: it fails whenever a builder fails, that is on a noise level outside [1, 2^63] while the trace matrix has cells, on a plaintext narrower than the key, or, once a plaintext exists, on fewer time samples than key bytes; otherwise the hypothesis matrices and traces are those the builders define, and the result is recoverKey applied to them |
| Attack.SelfTestAsWritten | Jupyter-Notebooks/0.cema.py:128-144 | the composition as written (hypothesis matrices, traces, numpy's argmax): it fails whenever a builder fails; a recovered key has one byte per key byte, each below 256; a noise-free run with more time samples than key bytes recovers the all-zero key, whatever the real key |
| Attack.SelfTest | Jupyter-Notebooks/0.cema.py:128-144 | the corrected composition (NaN cells skipped): same failure cases and byte bounds; a noise-free run recovers exactly the real key whenever every true hypothesis row varies and every true cell correlates strictly better than every cell of a wrong key guess |
| Attack.NoiselessRowsAreClosedForm | Jupyter-Notebooks/0.cema.py:90-97 | in a noise-free run, hypothesis row k of position j is hw(p[i][j] XOR k) over the plaintexts; trace row t is the true hypothesis row of position t within the key and all zeros beyond it |

## Left out

- `genPlainTexts` (`np.random.randint`): the plaintext matrix is a parameter whose entries are bytes, because the randomness itself is not specifiable.
- The random noise of `genEMTraces`: the noise matrix is a parameter. `Traces.IsNoise` states the shape and range `randint(noiseLevel, ...)` guarantees.
- The value of the Pearson coefficient (`np.corrcoef`, floating point): it is the parameter `rho`. Only the NaN condition is modelled.
- Recovery.BuildCorrelationMatrix: does not state that defined correlations lie in [-1, 1], because the Pearson value is a parameter.
- Recovery.SkippingNaNRecoversKey: assumes, rather than proves, that each true cell's self-correlation beats every cell of a wrong key guess. That depends on the Pearson values and on the random plaintexts.
- Attack.SelfTest: takes the same assumption, stated on the closed-form rows (`TrueCellWins`), for the same reason.
- Fixed-width numpy integers: entries are unbounded. randint's int64 limit on the noise level is modelled; the in-place sum `T[j,i] + hw` wraps around in numpy only when a noise sample lies within 8 of 2^63, and the model does not wrap it.
- Recovery.Correlation: the NaN rule assumes samples below 2^53, which float64 holds exactly. `np.cov` converts the rows to float64, so distinct larger samples can round to one value and give a NaN the model does not predict; only a noise level of at least 2^53 - 7 can produce such samples.
- Negative arguments: every count and index is a natural number, so these Python behaviours are not modelled:
  - `getHammingWeight` of a negative integer fails on the '-' of its rendering.
  - A negative byte position b in `genHypoMatrix` slices `plainTexts[:, b:b+1]`. For b = -1, and for every b below minus the plaintext width, the slice is empty, so `plainTextBytes[i][0]` raises an IndexError once a plaintext exists. Only b from minus the width to -2 selects a column counted from the end.
  - A negative `traceDuration` makes `np.random.randint` raise a ValueError.
  - A negative `keyLengthInBytes` makes `range` empty, so `getHypoMatrices` returns no matrices and `recoverKey` returns an empty key.
- `recoverKey` collects bytes in a float array and converts them back with `astype(int)`. Row indices below 256 survive that exactly, so the model keeps them as integers.
- The deprecated hex and bit-string helpers at the end of the file: they are dead code inside a string literal.
- Plotting, notebook scaffolding, and the tuple/array plumbing (`np.append`, `tolist`): these become plain sequences.

## Findings

| source | as written | input that shows it | evidently intended | confidence | as-written member | corrected member |
|---|---|---|---|---|---|---|
| Jupyter-Notebooks/0.cema.py:139-140 | `C.argmax()` ranks NaN above every number, and `np.corrcoef` returns NaN for a constant trace row. In a noise-free run, the rows past the key are all zero. Every byte therefore comes from the first NaN cell, which is in row 0. | `realKey = [0x12, 0x34, 0x56, 0x78]`, `traceDuration = 8`, `noiseLevel = 1`, any plaintexts at least 4 bytes wide: trace rows 4 to 7 are zero, and `recoverKey` returns `[0, 0, 0, 0]` | a degenerate correlation never wins, and a noise-free self-test recovers the real key | medium; not executed | Attack.SelfTestAsWritten | Attack.SelfTest |

=== FILE: attack.dfy ===
/** The composition the source's functions are written for: hypothesis
    matrices for every key byte, synthetic traces of a known key, and key
    recovery from the two, checked against the key that made the traces. */
module Attack {
  import opened Bits
  import opened Results
  import opened Hypothesis
  import opened Traces
  import opened Recovery

  /** The inputs on which both builders succeed: a noise level randint
      accepts for this size, plaintexts covering the key, and (once there
      is a plaintext) enough time samples for the key. */
  predicate Buildable(key: seq<Byte>, p: seq<seq<Byte>>, duration: nat, noiseLevel: int)
  {
    !NoiseFails(duration, |p|, noiseLevel) && CoversWidth(p, |key|) && (|p| > 0 ==> |key| <= duration)
  }

  /** Row k of the hypothesis matrix of byte position b, in closed form. */
  function HypoRow(p: seq<seq<Byte>>, b: nat, k: Byte): (row: seq<int>)
    requires HasColumn(p, b)
    ensures |row| == |p|
  {
    seq(|p|, i requires 0 <= i < |p| => Leakage(p[i][b], k))
  }

  /** Time row t of a noise-free trace matrix: the leakage of key byte t,
      or all zeros past the key. */
  function NoiselessRow(key: seq<Byte>, p: seq<seq<Byte>>, t: nat): (row: seq<int>)
    requires CoversWidth(p, |key|)
    ensures |row| == |p|
  {
    if t < |key| then HypoRow(p, t, key[t]) else seq(|p|, _ => 0)
  }

  /** Each true hypothesis row varies across the plaintexts, so its
      correlation with itself is defined. */
  predicate KeyRowsVary(key: seq<Byte>, p: seq<seq<Byte>>)
    requires CoversWidth(p, |key|)
  {
    forall j :: 0 <= j < |key| ==> !Degenerate(HypoRow(p, j, key[j]))
  }

  /** For every key byte j, the true cell (key[j], j) correlates strictly
      better than every defined cell of a wrong key guess in a noise-free
      run. Cells of the true row may tie with it. */
  predicate TrueCellWins(key: seq<Byte>, p: seq<seq<Byte>>, duration: nat, rho: Pearson)
    requires CoversWidth(p, |key|)
  {
    forall j, k: Byte, t ::
      (0 <= j < |key| && 0 <= t < duration && k != key[j] &&
       !Degenerate(HypoRow(p, j, k)) && !Degenerate(NoiselessRow(key, p, t)))
      ==> rho(HypoRow(p, j, k), NoiselessRow(key, p, t)) < rho(HypoRow(p, j, key[j]), HypoRow(p, j, key[j]))
  }

  /** Build the hypothesis matrices and the traces, then recover the key
      under the given selection policy. */
  method Run(key: seq<Byte>, p: seq<seq<Byte>>, duration: nat, noiseLevel: int, noise: Matrix,
             rho: Pearson, policy: Policy)
    returns (Hs: seq<Matrix>, T: Matrix, r: Result<seq<nat>>)
    requires !NoiseFails(duration, |p|, noiseLevel) ==> IsNoise(noise, duration, |p|, noiseLevel)
    ensures !Buildable(key, p, duration, noiseLevel) ==> r.Err?
    ensures Buildable(key, p, duration, noiseLevel) ==>
      && |Hs| == |key| && (forall j :: 0 <= j < |key| ==> IsHypoMatrix(p, j, Hs[j]))
      && IsTraceMatrix(key, p, noise, T)
      && r == RecoverKey(Hs, T, |key|, rho, policy)
  {
    Hs, T := [], [];
    var hypotheses := GetHypoMatrices(p, |key|);
    if hypotheses.Err? {
      return Hs, T, Err(hypotheses.error);
    }
    Hs := hypotheses.value;
    var traces := GenEMTraces(key, p, duration, noiseLevel, noise);
    if traces.Err? {
      return Hs, T, Err(traces.error);
    }
    T := traces.value;
    r := RecoverKey(Hs, T, |key|, rho, policy);
  }

  /** The self-test as the source's functions compose (numpy's argmax, NaN
      first): a noise-free run with more time samples than key bytes
      recovers the all-zero key, whatever the real key is. */
  method SelfTestAsWritten(key: seq<Byte>, p: seq<seq<Byte>>, duration: nat, noiseLevel: int, noise: Matrix,
                           rho: Pearson)
    returns (recovered: Result<seq<nat>>)
    requires !NoiseFails(duration, |p|, noiseLevel) ==> IsNoise(noise, duration, |p|, noiseLevel)
    ensures !Buildable(key, p, duration, noiseLevel) ==> recovered.Err?
    ensures recovered.Ok? ==> |recovered.value| == |key| && forall j :: 0 <= j < |key| ==> recovered.value[j] < 256
    ensures noiseLevel == 1 && CoversWidth(p, |key|) && |key| < duration ==>
      recovered == Ok(seq(|key|, _ => 0))
  {
    var Hs, T;
    Hs, T, recovered := Run(key, p, duration, noiseLevel, noise, rho, FirstNaNWins);
    if Buildable(key, p, duration, noiseLevel) {
      RecoveredKeyIsBytes(p, Hs, T, |key|, rho, FirstNaNWins);
      if noiseLevel == 1 && |key| < duration {
        NoiselessRunRecoversZeroKey(key, p, noise, T, Hs, rho);
      }
    }
  }

  /** The self-test with NaN cells skipped: a noise-free run recovers the
      real key, provided each true hypothesis row varies and each true cell
      correlates strictly better than every cell of a wrong key guess. */
  method SelfTest(key: seq<Byte>, p: seq<seq<Byte>>, duration: nat, noiseLevel: int, noise: Matrix,
                  rho: Pearson)
    returns (recovered: Result<seq<nat>>)
    requires !NoiseFails(duration, |p|, noiseLevel) ==> IsNoise(noise, duration, |p|, noiseLevel)
    ensures !Buildable(key, p, duration, noiseLevel) ==> recovered.Err?
    ensures recovered.Ok? ==> |recovered.value| == |key| && forall j :: 0 <= j < |key| ==> recovered.value[j] < 256
    ensures noiseLevel == 1 && CoversWidth(p, |key|) && |key| <= duration &&
            KeyRowsVary(key, p) && TrueCellWins(key, p, duration, rho) ==>
      recovered == Ok(key)
  {
    var Hs, T;
    Hs, T, recovered := Run(key, p, duration, noiseLevel, noise, rho, SkipNaN);
    if Buildable(key, p, duration, noiseLevel) {
      RecoveredKeyIsBytes(p, Hs, T, |key|, rho, SkipNaN);
      if noiseLevel == 1 && |key| <= duration && KeyRowsVary(key, p) && TrueCellWins(key, p, duration, rho) {
        NoiselessRowsAreClosedForm(key, p, noise, T, Hs);
        SkippingNaNRecoversKey(key, p, noise, T, Hs, rho);
      }
    }
  }

  /** In a noise-free run, every hypothesis row and every trace row is its
      closed form. */
  lemma NoiselessRowsAreClosedForm(key: seq<Byte>, p: seq<seq<Byte>>, noise: Matrix, T: Matrix, Hs: seq<Matrix>)
    requires IsNoise(noise, |noise|, |p|, 1)
    requires IsTraceMatrix(key, p, noise, T) && |key| <= |T|
    requires |Hs| == |key| && forall j :: 0 <= j < |key| ==> IsHypoMatrix(p, j, Hs[j])
    ensures CoversWidth(p, |key|)
    ensures forall j :: 0 <= j < |key| ==> |Hs[j]| == 256 && forall k :: 0 <= k < 256 ==> Hs[j][k] == HypoRow(p, j, k)
    ensures forall t :: 0 <= t < |T| ==> T[t] == NoiselessRow(key, p, t)
  {
    NoiselessTraceMatchesHypothesis(key, p, noise, T, Hs);
    forall j, k | 0 <= j < |key| && 0 <= k < 256
      ensures Hs[j][k] == HypoRow(p, j, k)
    {
      assert |Hs[j][k]| == |p|;
    }
  }
}

=== FILE: bits.dfy ===
/** Integer bit operations on non-negative Python integers: the `^` operator
    and the number of set bits, with the facts the leakage model relies on. */
module Bits {

  /** A plaintext or key byte. */
  type Byte = x: int | 0 <= x < 256

  function Pow2(n: nat): (r: nat)
    ensures r >= 1
  {
    if n == 0 then 1 else 2 * Pow2(n - 1)
  }

  /** Python's `a ^ b` on non-negative integers, bit by bit from the lowest.
      Two numbers cancel exactly when they are equal. */
  function Xor(a: nat, b: nat): (r: nat)
    ensures r == 0 <==> a == b
    decreases a + b
  {
    if a == 0 && b == 0 then 0
    else 2 * Xor(a / 2, b / 2) + (a % 2 + b % 2) % 2
  }

  /** Reference definition of the Hamming weight: the number of 1-bits. */
  function PopCount(x: nat): nat
  {
    if x == 0 then 0 else x % 2 + PopCount(x / 2)
  }

  lemma PopCountStep(q: nat, bit: nat)
    requires bit < 2
    ensures PopCount(2 * q + bit) == PopCount(q) + bit
  {
  }

  /** Xor with 0 is the identity. */
  lemma {:induction false} XorZero(a: nat)
    ensures Xor(a, 0) == a
  {
    if a != 0 {
      XorZero(a / 2);
    }
  }

  /** Xor splits into its lowest bit and the Xor of the higher bits. */
  lemma {:induction false} XorUnfold(a: nat, b: nat)
    ensures Xor(a, b) == 2 * Xor(a / 2, b / 2) + (a % 2 + b % 2) % 2
  {
  }

  lemma {:induction false} XorHalves(a: nat, b: nat)
    ensures Xor(a, b) / 2 == Xor(a / 2, b / 2)
    ensures Xor(a, b) % 2 == (a % 2 + b % 2) % 2
  {
    XorUnfold(a, b);
  }

  /** Xor of two single bits, by cases. */
  function BitXor(x: nat, y: nat): nat
    requires x < 2 && y < 2
  {
    if x == y then 0 else 1
  }

  lemma BitXorMod(x: nat, y: nat)
    requires x < 2 && y < 2
    ensures BitXor(x, y) == (x + y) % 2
  {
  }

  lemma BitXorAssociates(x: nat, y: nat, z: nat)
    requires x < 2 && y < 2 && z < 2
    ensures BitXor(x, BitXor(y, z)) == BitXor(BitXor(x, y), z)
  {
  }

  /** Xor(a, Xor(b, c)) in terms of the halves and the lowest bits. */
  lemma {:induction false} XorNestedRight(a: nat, b: nat, c: nat)
    ensures Xor(a, Xor(b, c)) == 2 * Xor(a / 2, Xor(b / 2, c / 2)) + BitXor(a % 2, BitXor(b % 2, c % 2))
  {
    var bc := Xor(b, c);
    XorHalves(b, c);
    XorUnfold(a, bc);
    BitXorMod(b % 2, c % 2);
    BitXorMod(a % 2, bc % 2);
  }

  /** Xor(Xor(a, b), c) in terms of the halves and the lowest bits. */
  lemma {:induction false} XorNestedLeft(a: nat, b: nat, c: nat)
    ensures Xor(Xor(a, b), c) == 2 * Xor(Xor(a / 2, b / 2), c / 2) + BitXor(BitXor(a % 2, b % 2), c % 2)
  {
    var ab := Xor(a, b);
    XorHalves(a, b);
    XorUnfold(ab, c);
    BitXorMod(a % 2, b % 2);
    BitXorMod(ab % 2, c % 2);
  }

  lemma HalvesShrink(a: nat, b: nat, c: nat)
    requires a != 0 || b != 0 || c != 0
    ensures a / 2 + b / 2 + c / 2 < a + b + c
  {
  }

  lemma {:induction false} XorAssociates(a: nat, b: nat, c: nat)
    ensures Xor(a, Xor(b, c)) == Xor(Xor(a, b), c)
    decreases a + b + c
  {
    if a != 0 || b != 0 || c != 0 {
      var x, y, z := a % 2, b % 2, c % 2;
      var high := Xor(a / 2, Xor(b / 2, c / 2));
      var low := BitXor(x, BitXor(y, z));
      assert Xor(a, Xor(b, c)) == 2 * high + low by {
        XorNestedRight(a, b, c);
      }
      assert Xor(Xor(a / 2, b / 2), c / 2) == high by {
        HalvesShrink(a, b, c);
        XorAssociates(a / 2, b / 2, c / 2);
      }
      assert BitXor(BitXor(x, y), z) == low by {
        BitXorAssociates(x, y, z);
      }
      assert Xor(Xor(a, b), c) == 2 * high + low by {
        XorNestedLeft(a, b, c);
      }
    }
  }

  /** Xor of two n-bit numbers is an n-bit number. */
  lemma {:induction false} XorBounded(a: nat, b: nat, n: nat)
    requires a < Pow2(n) && b < Pow2(n)
    ensures Xor(a, b) < Pow2(n)
  {
    if n > 0 && (a != 0 || b != 0) {
      XorBounded(a / 2, b / 2, n - 1);
    }
  }

  /** An n-bit number has at most n set bits. */
  lemma {:induction false} PopCountBounded(x: nat, n: nat)
    requires x < Pow2(n)
    ensures PopCount(x) <= n
  {
    if x != 0 {
      PopCountBounded(x / 2, n - 1);
    }
  }

  /** 2^n - 1 is n one bits: its low bit is 1 and its high bits 2^(n-1) - 1. */
  lemma AllOnesHalves(n: nat)
    requires n > 0
    ensures (Pow2(n) - 1) / 2 == Pow2(n - 1) - 1 && (Pow2(n) - 1) % 2 == 1
  {
    assert Pow2(n) == 2 * Pow2(n - 1);
  }

  /** Halving an (n+1)-bit number leaves an n-bit number. */
  lemma HalfBelow(x: nat, n: nat)
    requires n > 0 && x < Pow2(n)
    ensures x / 2 < Pow2(n - 1)
  {
    assert Pow2(n) == 2 * Pow2(n - 1);
  }

  /** Flipping every bit of an n-bit number turns its weight w into n - w. */
  lemma {:induction false} PopCountComplement(x: nat, n: nat)
    requires x < Pow2(n)
    ensures PopCount(Xor(x, Pow2(n) - 1)) == n - PopCount(x)
  {
    if n > 0 {
      var m, m' := Pow2(n) - 1, Pow2(n - 1) - 1;
      var half, low := x / 2, (x % 2 + 1) % 2;
      var flipped := Xor(half, m');
      assert Xor(x, m) == 2 * flipped + low by {
        AllOnesHalves(n);
        XorUnfold(x, m);
      }
      assert PopCount(flipped) == n - 1 - PopCount(half) by {
        HalfBelow(x, n);
        PopCountComplement(half, n - 1);
      }
      assert PopCount(Xor(x, m)) == PopCount(flipped) + low by {
        PopCountStep(flipped, low);
      }
      assert PopCount(x) == x % 2 + PopCount(half);
    }
  }

  lemma Pow2Eight()
    ensures Pow2(8) == 256
  {
  }

  /** The byte-level facts used by both matrix builders. */
  lemma ByteXor(a: Byte, b: Byte)
    ensures Xor(a, b) < 256
    ensures PopCount(Xor(a, b)) <= 8
    ensures PopCount(Xor(a, 255)) == 8 - PopCount(a)
  {
    Pow2Eight();
    XorBounded(a, b, 8);
    PopCountBounded(Xor(a, b), 8);
    PopCountComplement(a, 8);
  }

  /** Worked values: hw(0) = 0, hw(255) = 8 and hw(170) = 4. */
  lemma PopCountExamples()
    ensures PopCount(0) == 0
    ensures PopCount(255) == 8
    ensures PopCount(170) == 4
  {
    assert PopCount(1) == 1;
    assert PopCount(3) == 2 && PopCount(7) == 3 && PopCount(15) == 4;
    assert PopCount(31) == 5 && PopCount(63) == 6 && PopCount(127) == 7;
    assert PopCount(2) == 1 && PopCount(5) == 2 && PopCount(10) == 2;
    assert PopCount(21) == 3 && PopCount(42) == 3 && PopCount(85) == 4;
  }
}

=== FILE: hamming.dfy ===
/** `getHammingWeight`: render the integer with `format(x, '08b')` and count
    the '1' characters of the rendering. */
module Hamming {
  import opened Bits

  function Digit(bit: nat): char
    requires bit < 2
  {
    if bit == 1 then '1' else '0'
  }

  /** Python's `format(x, 'b')`: the binary digits of x, most significant
      first, with no leading zeros ("0" for zero). */
  function Binary(x: nat): (s: seq<char>)
    ensures |s| >= 1
  {
    if x < 2 then [Digit(x)] else Binary(x / 2) + [Digit(x % 2)]
  }

  /** Python's `format(x, '08b')`: the binary digits left-padded with '0'
      to a width of at least eight. */
  function Format08b(x: nat): (s: seq<char>)
    ensures |s| >= 8 && |s| >= |Binary(x)|
    ensures s[|s| - |Binary(x)|..] == Binary(x)
    ensures forall i :: 0 <= i < |s| - |Binary(x)| ==> s[i] == '0'
    ensures |Binary(x)| < 8 ==> |s| == 8
    ensures |Binary(x)| >= 8 ==> s == Binary(x)
  {
    var digits := Binary(x);
    if |digits| < 8 then seq(8 - |digits|, _ => '0') + digits else digits
  }

  /** The number of '1' characters in a string. */
  function CountOnes(s: seq<char>): nat
  {
    if s == [] then 0
    else CountOnes(s[..|s| - 1]) + (if s[|s| - 1] == '1' then 1 else 0)
  }

  lemma {:induction false} CountOnesAppend(s: seq<char>, t: seq<char>)
    ensures CountOnes(s + t) == CountOnes(s) + CountOnes(t)
    decreases |t|
  {
    if t == [] {
      assert s + t == s;
    } else {
      assert (s + t)[..|s + t| - 1] == s + t[..|t| - 1];
      CountOnesAppend(s, t[..|t| - 1]);
    }
  }

  lemma {:induction false} CountOnesZeros(n: nat)
    ensures CountOnes(seq(n, _ => '0')) == 0
  {
    if n > 0 {
      assert seq(n, _ => '0')[..n - 1] == seq(n - 1, _ => '0');
      CountOnesZeros(n - 1);
    }
  }

  /** The '1' digits of the binary rendering are exactly the set bits. */
  lemma {:induction false} CountOnesBinary(x: nat)
    ensures CountOnes(Binary(x)) == PopCount(x)
  {
    if x < 2 {
      assert Binary(x)[..0] == [];
    } else {
      var d := Binary(x / 2) + [Digit(x % 2)];
      assert d[..|d| - 1] == Binary(x / 2);
      CountOnesBinary(x / 2);
    }
  }

  lemma {:induction false} BinaryLength(x: nat, n: nat)
    requires 1 <= n && x < Pow2(n)
    ensures |Binary(x)| <= n
  {
    if x >= 2 {
      BinaryLength(x / 2, n - 1);
    }
  }

  /** Padding adds no ones, so the count equals the number of set bits. */
  lemma CountOnesFormat(x: nat)
    ensures CountOnes(Format08b(x)) == PopCount(x)
  {
    var digits := Binary(x);
    CountOnesBinary(x);
    if |digits| < 8 {
      CountOnesAppend(seq(8 - |digits|, _ => '0'), digits);
      CountOnesZeros(8 - |digits|);
    }
  }

  /** A byte renders as exactly eight binary digits. */
  lemma FormatByteLength(x: Byte)
    ensures |Format08b(x)| == 8
    ensures forall i :: 0 <= i < 8 ==> Format08b(x)[i] in {'0', '1'}
  {
    Pow2Eight();
    BinaryLength(x, 8);
    BinaryDigits(x);
  }

  lemma {:induction false} BinaryDigits(x: nat)
    ensures forall i :: 0 <= i < |Binary(x)| ==> Binary(x)[i] in {'0', '1'}
  {
    if x >= 2 {
      BinaryDigits(x / 2);
    }
  }

  /** The source's loop over the characters of `format(x, '08b')`. */
  method GetHammingWeight(x: nat) returns (count: nat)
    ensures count == PopCount(x)
    ensures x < 256 ==> count <= 8
  {
    var s := Format08b(x);
    count := 0;
    for i := 0 to |s|
      invariant count == CountOnes(s[..i])
    {
      assert s[..i + 1][..i] == s[..i];
      if s[i] == '1' {
        count := count + 1;
      }
    }
    assert s[..|s|] == s;
    CountOnesFormat(x);
    if x < 256 {
      Pow2Eight();
      PopCountBounded(x, 8);
    }
  }
}

=== FILE: hypothesis.dfy ===
/** `genHypoMatrix` and `getHypoMatrices`: the Hamming-weight leakage
    predicted for every candidate key byte and every plaintext. */
module Hypothesis {
  import opened Bits
  import opened Results
  import Hamming

  type Matrix = seq<seq<int>>

  /** The leakage model shared by the hypothesis and trace builders:
      the Hamming weight of the plaintext byte XOR the key byte. */
  function Leakage(x: Byte, k: Byte): nat
  {
    PopCount(Xor(x, k))
  }

  /** Every plaintext has a byte at position b. */
  predicate HasColumn(p: seq<seq<Byte>>, b: nat)
  {
    forall i :: 0 <= i < |p| ==> b < |p[i]|
  }

  /** Every plaintext is at least `width` bytes wide, so each of the first
      `width` byte positions has a column. */
  predicate CoversWidth(p: seq<seq<Byte>>, width: nat)
  {
    forall i :: 0 <= i < |p| ==> width <= |p[i]|
  }

  /** H is the hypothesis matrix of byte position b: 256 rows, one per key
      guess k, each with one predicted leakage per plaintext. */
  predicate IsHypoMatrix(p: seq<seq<Byte>>, b: nat, H: Matrix)
  {
    && HasColumn(p, b)
    && |H| == 256
    && (forall k :: 0 <= k < 256 ==> |H[k]| == |p|)
    && (forall k, i :: 0 <= k < 256 && 0 <= i < |p| ==> H[k][i] == Leakage(p[i][b], k))
  }

  /** The source's nested loops: plaintexts outer, key guesses inner, each
      cell of a zero matrix overwritten with its predicted leakage. */
  method GenHypoMatrix(p: seq<seq<Byte>>, b: nat) returns (r: Result<Matrix>)
    ensures r.Err? <==> !HasColumn(p, b)
    ensures r.Err? ==> r.error == IndexOutOfRange
    ensures r.Ok? ==> IsHypoMatrix(p, b, r.value)
    ensures r.Ok? ==> forall k, i :: 0 <= k < 256 && 0 <= i < |p| ==> 0 <= r.value[k][i] <= 8
  {
    var H: Matrix := seq(256, _ => seq(|p|, _ => 0));
    for i := 0 to |p|
      invariant HasColumn(p[..i], b)
      invariant |H| == 256 && forall k :: 0 <= k < 256 ==> |H[k]| == |p|
      invariant forall k, c :: 0 <= k < 256 && 0 <= c < i ==> H[k][c] == Leakage(p[c][b], k)
    {
      if b >= |p[i]| {
        return Err(IndexOutOfRange);
      }
      var plainByte := p[i][b];
      for j := 0 to 256
        invariant |H| == 256 && forall k :: 0 <= k < 256 ==> |H[k]| == |p|
        invariant forall k, c :: 0 <= k < 256 && 0 <= c < i ==> H[k][c] == Leakage(p[c][b], k)
        invariant forall k :: 0 <= k < j ==> H[k][i] == Leakage(plainByte, k)
      {
        ByteXor(plainByte, j);
        var w := Hamming.GetHammingWeight(Xor(plainByte, j));
        H := H[j := H[j][i := w]];
      }
      assert HasColumn(p[..i + 1], b) by {
        assert forall c :: 0 <= c < i ==> p[..i + 1][c] == p[..i][c];
      }
    }
    assert p[..|p|] == p;
    r := Ok(H);
    HypoMatrixRange(p, b, H);
  }

  /** Every predicted leakage is a Hamming weight of a byte: 0 to 8. */
  lemma HypoMatrixRange(p: seq<seq<Byte>>, b: nat, H: Matrix)
    requires IsHypoMatrix(p, b, H)
    ensures forall k, i :: 0 <= k < 256 && 0 <= i < |p| ==> 0 <= H[k][i] <= 8
  {
    forall k, i | 0 <= k < 256 && 0 <= i < |p|
      ensures 0 <= H[k][i] <= 8
    {
      ByteXor(p[i][b], k);
    }
  }

  /** Row 0 is the Hamming weight of the unmodified plaintext bytes. */
  lemma HypoRowZero(p: seq<seq<Byte>>, b: nat, H: Matrix)
    requires IsHypoMatrix(p, b, H)
    ensures forall i :: 0 <= i < |p| ==> H[0][i] == PopCount(p[i][b])
  {
    forall i | 0 <= i < |p|
      ensures H[0][i] == PopCount(p[i][b])
    {
      XorZero(p[i][b]);
    }
  }

  /** The rows of complementary key guesses k and k XOR 255 mirror each
      other: one predicts 8 - w where the other predicts w. */
  lemma HypoComplementRows(p: seq<seq<Byte>>, b: nat, H: Matrix, k: Byte)
    requires IsHypoMatrix(p, b, H)
    ensures Xor(k, 255) < 256
    ensures forall i :: 0 <= i < |p| ==> H[Xor(k, 255)][i] == 8 - H[k][i]
  {
    ByteXor(k, 255);
    var k' := Xor(k, 255);
    forall i | 0 <= i < |p|
      ensures H[k'][i] == 8 - H[k][i]
    {
      var x := p[i][b];
      ByteXor(x, k);
      // x ^ (k ^ 255) == (x ^ k) ^ 255
      XorAssociates(x, k, 255);
      ByteXor(Xor(x, k), 255);
    }
  }

  /** The predicate pins the matrix down: there is one hypothesis matrix per
      plaintext matrix and byte position. */
  lemma HypoMatrixUnique(p: seq<seq<Byte>>, b: nat, H1: Matrix, H2: Matrix)
    requires IsHypoMatrix(p, b, H1) && IsHypoMatrix(p, b, H2)
    ensures H1 == H2
  {
    forall k | 0 <= k < 256
      ensures H1[k] == H2[k]
    {
      forall i | 0 <= i < |p|
        ensures H1[k][i] == H2[k][i]
      {
        assert H1[k][i] == Leakage(p[i][b], k) == H2[k][i];
      }
    }
  }

  /** The source's loop collecting one hypothesis matrix per key byte. */
  method GetHypoMatrices(p: seq<seq<Byte>>, keyLength: nat) returns (r: Result<seq<Matrix>>)
    ensures r.Err? <==> !CoversWidth(p, keyLength)
    ensures r.Ok? ==> |r.value| == keyLength
    ensures r.Ok? ==> forall b :: 0 <= b < keyLength ==> IsHypoMatrix(p, b, r.value[b])
  {
    var all: seq<Matrix> := [];
    for b := 0 to keyLength
      invariant |all| == b
      invariant forall c :: 0 <= c < b ==> IsHypoMatrix(p, c, all[c])
      invariant CoversWidth(p, b)
    {
      var h := GenHypoMatrix(p, b);
      if h.Err? {
        return Err(h.error);
      }
      all := all + [h.value];
    }
    r := Ok(all);
  }
}

=== FILE: recovery.dfy ===
/** `buildCorrelationMatrix` and `recoverKey`: score every (key guess, time
    sample) pair by correlation and keep the row of the selected cell, one
    key byte at a time. */
module Recovery {
  import opened Bits
  import opened Results
  import opened Hypothesis
  import opened Traces
  import opened Selection
  import opened Statistics

  /** The Pearson coefficient of two equally long rows that both vary;
      its floating-point value is not modelled. */
  type Pearson = (seq<int>, seq<int>) -> real

  /** The rows for which np.corrcoef yields NaN: fewer than two samples
      (its variance divides by n - 1) or a constant row (zero variance). */
  predicate Degenerate(x: seq<int>)
  {
    |x| < 2 || forall i :: 0 <= i < |x| ==> x[i] == x[0]
  }

  /** A row is degenerate exactly when np.corrcoef has nothing to divide
      by: fewer than two samples, or a zero spread around the mean. */
  lemma DegenerateIffNoSpread(x: seq<int>)
    ensures Degenerate(x) <==> |x| < 2 || Spread(x) == 0
  {
    if |x| >= 2 {
      SquaredDeviationsZero(x, |x|, Sum(x));
      if Spread(x) == 0 {
        forall i | 0 <= i < |x|
          ensures x[i] == x[0]
        {
          MulCancel(|x|, x[i], x[0]);
        }
      }
      if forall i :: 0 <= i < |x| ==> x[i] == x[0] {
        SumConst(x, x[0]);
      }
    }
  }

  /** `getCorrelationCoefficient`: NaN when either row has fewer than two
      samples or no spread, else the Pearson value. */
  function Correlation(x: seq<int>, y: seq<int>, rho: Pearson): (r: Score)
    ensures r.NaN? <==> |x| < 2 || |y| < 2 || Spread(x) == 0 || Spread(y) == 0
    ensures r.NaN? <==> Degenerate(x) || Degenerate(y)
    ensures r.Num? ==> r.value == rho(x, y)
  {
    DegenerateIffNoSpread(x);
    DegenerateIffNoSpread(y);
    if Degenerate(x) || Degenerate(y) then NaN else Num(rho(x, y))
  }

  predicate Mismatched(H: Matrix, T: Matrix)
  {
    exists k, t :: 0 <= k < |H| && 0 <= t < |T| && |H[k]| != |T[t]|
  }

  /** `buildCorrelationMatrix`: entry (k, t) correlates hypothesis row k
      with trace row t; rows of different lengths make np.corrcoef fail. */
  function BuildCorrelationMatrix(H: Matrix, T: Matrix, rho: Pearson): (r: Result<seq<seq<Score>>>)
    ensures r.Err? <==> Mismatched(H, T)
    ensures r.Err? ==> r.error == ShapeMismatch
    ensures r.Ok? ==> |r.value| == |H| && IsRect(r.value, |T|)
    ensures r.Ok? ==> forall k, t :: 0 <= k < |H| && 0 <= t < |T| ==> (r.value[k][t].NaN? <==> Degenerate(H[k]) || Degenerate(T[t]))
    ensures r.Ok? ==> forall k, t :: 0 <= k < |H| && 0 <= t < |T| && r.value[k][t].Num? ==> r.value[k][t].value == rho(H[k], T[t])
  {
    if Mismatched(H, T) then Err(ShapeMismatch)
    else Ok(seq(|H|, k requires 0 <= k < |H| => seq(|T|, t requires 0 <= t < |T| => Correlation(H[k], T[t], rho))))
  }

  /** How the selected cell is chosen: numpy's argmax, where the first NaN
      wins, or the corrected policy that ignores NaN cells. */
  datatype Policy = FirstNaNWins | SkipNaN

  function Select(policy: Policy, a: seq<Score>): Result<nat>
  {
    match policy
    case FirstNaNWins => ArgMax(a)
    case SkipNaN => NanArgMax(a)
  }

  ghost predicate IsSelectedCell(policy: Policy, C: seq<seq<Score>>, r: int, c: int)
  {
    match policy
    case FirstNaNWins => IsArgMaxCell(C, r, c)
    case SkipNaN => IsNanArgMaxCell(C, r, c)
  }

  /** One iteration of `recoverKey`: the row (key guess) of the selected
      cell of the correlation matrix. */
  function RecoverByte(H: Matrix, T: Matrix, rho: Pearson, policy: Policy): (r: Result<nat>)
    ensures r.Ok? ==> r.value < |H| && |T| > 0
    ensures r.Err? <==> Mismatched(H, T) || |H| == 0 || |T| == 0 ||
                        (policy == SkipNaN && forall k, t :: 0 <= k < |H| && 0 <= t < |T| ==>
                           Degenerate(H[k]) || Degenerate(T[t]))
  {
    match BuildCorrelationMatrix(H, T, rho)
    case Err(e) => Err(e)
    case Ok(C) =>
      if |H| == 0 || |T| == 0 then Err(EmptyArgMax)
      else
        SelectsCell(policy, C, |T|);
        match Select(policy, Flatten(C))
        case Err(e) => Err(e)
        case Ok(k) => Ok(Unravel(k, |T|).0)
  }

  /** The flat selection, unravelled, is the cell the policy describes. */
  lemma SelectsCell(policy: Policy, C: seq<seq<Score>>, w: nat)
    requires IsRect(C, w) && |C| > 0 && w > 0
    ensures Select(policy, Flatten(C)).Ok? <==> policy == FirstNaNWins || exists r, c :: IsCell(C, r, c) && C[r][c].Num?
    ensures Select(policy, Flatten(C)).Ok? ==>
      var (r, c) := Unravel(Select(policy, Flatten(C)).value, w); IsSelectedCell(policy, C, r, c)
  {
    if policy == FirstNaNWins {
      ArgMaxSelectsCell(C, w);
    } else {
      NanArgMaxSelectsCell(C, w);
    }
  }

  /** The recovered byte is the row of the cell the policy selects from
      the correlation matrix of H against T. */
  lemma RecoverByteSelects(H: Matrix, T: Matrix, rho: Pearson, policy: Policy)
    requires !Mismatched(H, T) && |H| > 0 && |T| > 0
    requires policy == SkipNaN ==>
      exists k, t :: 0 <= k < |H| && 0 <= t < |T| && !Degenerate(H[k]) && !Degenerate(T[t])
    ensures BuildCorrelationMatrix(H, T, rho).Ok?
    ensures exists c :: IsSelectedCell(policy, BuildCorrelationMatrix(H, T, rho).value, RecoverByte(H, T, rho, policy).value, c)
  {
    assert RecoverByte(H, T, rho, policy).Ok?;
    var C: seq<seq<Score>> := BuildCorrelationMatrix(H, T, rho).value;
    SelectsCell(policy, C, |T|);
    var (r, c) := Unravel(Select(policy, Flatten(C)).value, |T|);
    assert IsSelectedCell(policy, C, r, c);
  }

  /** `recoverKey`: one byte per hypothesis matrix, in index order; the
      first failing position makes the whole recovery fail. */
  function RecoverKey(Hs: seq<Matrix>, T: Matrix, keyLength: nat, rho: Pearson, policy: Policy): (r: Result<seq<nat>>)
    ensures r.Err? <==> keyLength > |Hs| ||
                        exists j :: 0 <= j < keyLength && j < |Hs| && RecoverByte(Hs[j], T, rho, policy).Err?
    ensures r.Ok? ==> |r.value| == keyLength
    ensures r.Ok? ==> forall j :: 0 <= j < keyLength ==> j < |Hs| && RecoverByte(Hs[j], T, rho, policy) == Ok(r.value[j])
  {
    if keyLength == 0 then Ok([])
    else
      match RecoverKey(Hs, T, keyLength - 1, rho, policy)
      case Err(e) => Err(e)
      case Ok(prefix) =>
        if keyLength - 1 >= |Hs| then Err(IndexOutOfRange)
        else
          match RecoverByte(Hs[keyLength - 1], T, rho, policy)
          case Err(e) => Err(e)
          case Ok(b) => Ok(prefix + [b])
  }

  /** Recovered bytes from hypothesis matrices are bytes: each is a row
      index of a 256-row matrix. */
  lemma RecoveredKeyIsBytes(p: seq<seq<Byte>>, Hs: seq<Matrix>, T: Matrix, keyLength: nat, rho: Pearson, policy: Policy)
    requires forall j :: 0 <= j < |Hs| ==> IsHypoMatrix(p, j, Hs[j])
    ensures RecoverKey(Hs, T, keyLength, rho, policy).Ok? ==>
      forall j :: 0 <= j < keyLength ==> RecoverKey(Hs, T, keyLength, rho, policy).value[j] < 256
  {
  }

  /** Bytes are recovered independently: when every position yields its
      byte, the key is exactly those bytes in order. */
  lemma RecoverKeyFromBytes(Hs: seq<Matrix>, T: Matrix, rho: Pearson, policy: Policy, key: seq<nat>)
    requires |key| <= |Hs|
    requires forall j :: 0 <= j < |key| ==> RecoverByte(Hs[j], T, rho, policy) == Ok(key[j])
    ensures RecoverKey(Hs, T, |key|, rho, policy) == Ok(key)
  {
    var r := RecoverKey(Hs, T, |key|, rho, policy);
    assert r.Ok?;
    assert r.value == key;
  }

  // ---------------------------------------------------------------------
  // The NaN column of a noiseless run

  /** As written, a single degenerate trace row decides the byte: its
      column is NaN in every row, so the first NaN sits in row 0 and the
      recovered byte is 0 whatever the other correlations are. */
  lemma DegenerateTraceRowForcesZero(H: Matrix, T: Matrix, rho: Pearson, t: nat)
    requires !Mismatched(H, T) && |H| > 0
    requires t < |T| && Degenerate(T[t])
    ensures RecoverByte(H, T, rho, FirstNaNWins) == Ok(0)
  {
    var C: seq<seq<Score>> := BuildCorrelationMatrix(H, T, rho).value;
    assert C[0][t].NaN?;
    assert MatrixHasNaN(C);
    RecoverByteSelects(H, T, rho, FirstNaNWins);
    var r := RecoverByte(H, T, rho, FirstNaNWins).value;
    var c :| IsSelectedCell(FirstNaNWins, C, r, c);
    assert IsArgMaxCell(C, r, c);
  }

  /** Hypothesis and trace rows all have one sample per plaintext. */
  lemma ShapesAgree(key: seq<Byte>, p: seq<seq<Byte>>, noise: Matrix, T: Matrix, j: nat, H: Matrix)
    requires IsTraceMatrix(key, p, noise, T) && IsHypoMatrix(p, j, H)
    ensures !Mismatched(H, T)
  {
  }

  /** Without noise, the trace rows past the key are constant. */
  lemma NoiselessTailIsDegenerate(key: seq<Byte>, p: seq<seq<Byte>>, noise: Matrix, T: Matrix)
    requires IsNoise(noise, |noise|, |p|, 1)
    requires IsTraceMatrix(key, p, noise, T) && |key| < |T|
    ensures Degenerate(T[|key|])
  {
    UnitNoiseIsZero(noise, |noise|, |p|);
    assert T[|key|] == noise[|key|] == seq(|p|, _ => 0);
  }

  /** A run with noise level 1 (no noise) and more time samples than key
      bytes: the trace rows past the key are all zero, hence degenerate,
      and the source's recoverKey returns the all-zero key. */
  lemma NoiselessRunRecoversZeroKey(key: seq<Byte>, p: seq<seq<Byte>>, noise: Matrix, T: Matrix,
                                    Hs: seq<Matrix>, rho: Pearson)
    requires IsNoise(noise, |noise|, |p|, 1)
    requires IsTraceMatrix(key, p, noise, T) && |key| < |T|
    requires |Hs| == |key| && forall j :: 0 <= j < |key| ==> IsHypoMatrix(p, j, Hs[j])
    ensures RecoverKey(Hs, T, |key|, rho, FirstNaNWins) == Ok(seq(|key|, _ => 0))
  {
    NoiselessTailIsDegenerate(key, p, noise, T);
    forall j | 0 <= j < |key|
      ensures RecoverByte(Hs[j], T, rho, FirstNaNWins) == Ok(0)
    {
      ShapesAgree(key, p, noise, T, j, Hs[j]);
      DegenerateTraceRowForcesZero(Hs[j], T, rho, |key|);
    }
    ZeroBytesZeroKey(Hs, T, rho, |key|);
  }

  lemma ZeroBytesZeroKey(Hs: seq<Matrix>, T: Matrix, rho: Pearson, keyLength: nat)
    requires keyLength <= |Hs|
    requires forall j :: 0 <= j < keyLength ==> RecoverByte(Hs[j], T, rho, FirstNaNWins) == Ok(0)
    ensures RecoverKey(Hs, T, keyLength, rho, FirstNaNWins) == Ok(seq(keyLength, _ => 0))
  {
    RecoverKeyFromBytes(Hs, T, rho, FirstNaNWins, seq(keyLength, _ => 0));
  }


  /** With NaN cells ignored, a defined cell that beats every defined cell
      of every other row decides the byte: the recovered byte is that
      cell's row, whatever the other cells of its own row hold. */
  lemma SkippingNaNRecoversDominantRow(H: Matrix, T: Matrix, rho: Pearson, k: nat, t: nat)
    requires !Mismatched(H, T) && k < |H| && t < |T|
    requires !Degenerate(H[k]) && !Degenerate(T[t])
    requires forall k', t' ::
               (0 <= k' < |H| && 0 <= t' < |T| && k' != k && !Degenerate(H[k']) && !Degenerate(T[t']))
               ==> rho(H[k'], T[t']) < rho(H[k], T[t])
    ensures RecoverByte(H, T, rho, SkipNaN) == Ok(k)
  {
    var C: seq<seq<Score>> := BuildCorrelationMatrix(H, T, rho).value;
    assert C[k][t].Num?;
    RecoverByteSelects(H, T, rho, SkipNaN);
    var r := RecoverByte(H, T, rho, SkipNaN).value;
    var c :| IsSelectedCell(SkipNaN, C, r, c);
    assert IsNanArgMaxCell(C, r, c);
    assert C[k][t].value <= C[r][c].value;
  }

  /** The corrected pipeline on the same noiseless run: if, for every key
      byte j, the true row key[j] against time sample j (whose trace row
      is that very hypothesis row) correlates strictly better than every
      defined cell of every other row, the recovered key is the real key. */
  lemma SkippingNaNRecoversKey(key: seq<Byte>, p: seq<seq<Byte>>, noise: Matrix, T: Matrix,
                               Hs: seq<Matrix>, rho: Pearson)
    requires IsNoise(noise, |noise|, |p|, 1)
    requires IsTraceMatrix(key, p, noise, T) && |key| <= |T|
    requires |Hs| == |key| && forall j :: 0 <= j < |key| ==> IsHypoMatrix(p, j, Hs[j])
    requires forall j :: 0 <= j < |key| ==> !Degenerate(T[j])
    requires forall j, k', t' ::
               (0 <= j < |key| && 0 <= k' < |Hs[j]| && 0 <= t' < |T| && k' != key[j] &&
                !Degenerate(Hs[j][k']) && !Degenerate(T[t']))
               ==> rho(Hs[j][k'], T[t']) < rho(T[j], T[j])
    ensures RecoverKey(Hs, T, |key|, rho, SkipNaN) == Ok(key)
  {
    NoiselessTraceMatchesHypothesis(key, p, noise, T, Hs);
    forall j | 0 <= j < |key|
      ensures RecoverByte(Hs[j], T, rho, SkipNaN) == Ok(key[j])
    {
      ShapesAgree(key, p, noise, T, j, Hs[j]);
      SkippingNaNRecoversDominantRow(Hs[j], T, rho, key[j], j);
    }
    RecoverKeyFromBytes(Hs, T, rho, SkipNaN, key);
  }
}

=== FILE: results.dfy ===
/** Failure values of the CPA pipeline. Python raises an exception where the
    model returns `Err`; the constructors name the exception's cause, except
    `AllNaN`, which only the corrected NaN-skipping selection produces. */
module Results {

  datatype Error =
    | IndexOutOfRange    // an IndexError from numpy or tuple indexing
    | InvalidNoiseLevel  // numpy's randint rejects an exclusive bound outside [1, 2^63] when drawing samples
    | ShapeMismatch      // np.corrcoef on rows of different lengths
    | EmptyArgMax        // argmax of an array with no cells
    | AllNaN             // NaN-skipping argmax of an array with no number

  datatype Result<T> = Ok(value: T) | Err(error: Error)
}

=== FILE: selection.dfy ===
/** `np.unravel_index(C.argmax(), C.shape)`: the cell a score matrix selects.
    numpy scans the matrix as one flat array in row-major order and returns
    the first maximum; a NaN counts as larger than every number, so the
    first NaN wins whenever there is one. */
module Selection {
  import opened Results

  /** A float64 correlation: a number, or the NaN numpy produces for a
      constant row. */
  datatype Score = NaN | Num(value: real)

  /** numpy's `x <= y` on floats: false whenever either side is NaN. */
  predicate AtMost(x: Score, y: Score)
  {
    x.Num? && y.Num? && x.value <= y.value
  }

  predicate HasNaN(a: seq<Score>)
  {
    exists m :: 0 <= m < |a| && a[m].NaN?
  }

  /** What `a.argmax()` returns: the first NaN if there is one, otherwise
      the first index holding the largest number. */
  predicate IsArgMax(a: seq<Score>, k: int)
  {
    && 0 <= k < |a|
    && if HasNaN(a) then
         a[k].NaN? && forall m :: 0 <= m < k ==> a[m].Num?
       else
         && (forall m :: 0 <= m < |a| ==> AtMost(a[m], a[k]))
         && (forall m :: 0 <= m < k ==> !AtMost(a[k], a[m]))
  }

  /** numpy's argmax on a flat float array; an empty array is an error. */
  function ArgMax(a: seq<Score>): (r: Result<nat>)
    ensures r.Err? <==> |a| == 0
    ensures r.Err? ==> r.error == EmptyArgMax
    ensures r.Ok? ==> IsArgMax(a, r.value)
  {
    if |a| == 0 then Err(EmptyArgMax)
    else if a[0].NaN? then Ok(0)
    else Ok(Scan(a, 1, 0))
  }

  /** numpy's scan loop: `best` indexes the running maximum, a cell that is
      not `<=` it takes its place, and the scan stops at the first NaN. */
  function Scan(a: seq<Score>, i: nat, best: nat): (k: nat)
    requires best < i <= |a|
    requires forall m :: 0 <= m < i ==> AtMost(a[m], a[best])
    requires forall m :: 0 <= m < best ==> !AtMost(a[best], a[m])
    ensures IsArgMax(a, k)
    decreases |a| - i
  {
    if i == |a| then
      assert forall m :: 0 <= m < |a| ==> AtMost(a[m], a[best]);
      assert !HasNaN(a);
      best
    else if !AtMost(a[i], a[best]) then
      if a[i].NaN? then i
      else
        assert forall m :: 0 <= m < i + 1 ==> AtMost(a[m], a[i]) by {
          assert forall m :: 0 <= m < i ==> AtMost(a[m], a[best]);
        }
        Scan(a, i + 1, i)
    else Scan(a, i + 1, best)
  }

  /** The first index holding the largest number, NaNs ignored (the policy
      of numpy's nanargmax). */
  predicate IsNanArgMax(a: seq<Score>, k: int)
  {
    && 0 <= k < |a|
    && a[k].Num?
    && (forall m :: 0 <= m < |a| && a[m].Num? ==> a[m].value <= a[k].value)
    && (forall m :: 0 <= m < k && a[m].Num? ==> a[m].value < a[k].value)
  }

  /** Argmax that skips NaN; an array holding no number is an error. */
  function NanArgMax(a: seq<Score>): (r: Result<nat>)
    ensures r.Err? <==> forall m :: 0 <= m < |a| ==> a[m].NaN?
    ensures r.Err? ==> r.error == AllNaN
    ensures r.Ok? ==> IsNanArgMax(a, r.value)
  {
    var k := NanScan(a, 0, -1);
    if k < 0 then Err(AllNaN) else Ok(k)
  }

  function NanScan(a: seq<Score>, i: nat, best: int): (k: int)
    requires i <= |a| && -1 <= best < i
    requires best < 0 ==> forall m :: 0 <= m < i ==> a[m].NaN?
    requires best >= 0 ==> a[best].Num?
    requires best >= 0 ==> forall m :: 0 <= m < i && a[m].Num? ==> a[m].value <= a[best].value
    requires best >= 0 ==> forall m :: 0 <= m < best && a[m].Num? ==> a[m].value < a[best].value
    ensures k < 0 <==> forall m :: 0 <= m < |a| ==> a[m].NaN?
    ensures k >= 0 ==> IsNanArgMax(a, k)
    decreases |a| - i
  {
    if i == |a| then best
    else if a[i].Num? && (best < 0 || a[i].value > a[best].value) then NanScan(a, i + 1, i)
    else NanScan(a, i + 1, best)
  }

  // ---------------------------------------------------------------------
  // Matrices, the row-major flat view and unravel_index

  predicate IsRect<T>(C: seq<seq<T>>, w: nat)
  {
    forall r :: 0 <= r < |C| ==> |C[r]| == w
  }

  /** The matrix's cells in row-major (C) order, as numpy's argmax sees them. */
  function Flatten<T>(C: seq<seq<T>>): seq<T>
  {
    if C == [] then [] else Flatten(C[..|C| - 1]) + C[|C| - 1]
  }

  /** `np.unravel_index(k, (rows, w))`: the (row, column) of flat index k. */
  function Unravel(k: nat, w: nat): (nat, nat)
    requires w > 0
  {
    (k / w, k % w)
  }

  predicate CellBefore(r1: int, c1: int, r2: int, c2: int)
  {
    r1 < r2 || (r1 == r2 && c1 < c2)
  }

  predicate IsCell<T>(C: seq<seq<T>>, r: int, c: int)
  {
    0 <= r < |C| && 0 <= c < |C[r]|
  }

  ghost predicate MatrixHasNaN(C: seq<seq<Score>>)
  {
    exists r, c :: IsCell(C, r, c) && C[r][c].NaN?
  }

  /** The cell numpy selects, stated on the matrix: the first NaN in
      row-major order if any cell is NaN; otherwise a cell holding the
      largest number, with every earlier cell strictly smaller. */
  ghost predicate IsArgMaxCell(C: seq<seq<Score>>, r: int, c: int)
  {
    && IsCell(C, r, c)
    && if MatrixHasNaN(C) then
         && C[r][c].NaN?
         && forall r', c' :: IsCell(C, r', c') && CellBefore(r', c', r, c) ==> C[r'][c'].Num?
       else
         && (forall r', c' :: IsCell(C, r', c') ==> AtMost(C[r'][c'], C[r][c]))
         && (forall r', c' :: IsCell(C, r', c') && CellBefore(r', c', r, c) ==> !AtMost(C[r][c], C[r'][c']))
  }

  /** The corrected selection stated on the matrix: a defined cell holding
      the largest number, every earlier defined cell strictly smaller. */
  ghost predicate IsNanArgMaxCell(C: seq<seq<Score>>, r: int, c: int)
  {
    && IsCell(C, r, c)
    && C[r][c].Num?
    && (forall r', c' :: IsCell(C, r', c') && C[r'][c'].Num? ==> C[r'][c'].value <= C[r][c].value)
    && (forall r', c' :: IsCell(C, r', c') && C[r'][c'].Num? && CellBefore(r', c', r, c) ==>
          C[r'][c'].value < C[r][c].value)
  }

  /** a < b gives a * w + w <= b * w: the rows before row b fill its offset. */
  lemma {:induction false} MulLess(a: nat, b: nat, w: nat)
    requires a < b
    ensures a * w + w <= b * w
    decreases b - a
  {
    if a + 1 < b {
      MulLess(a, b - 1, w);
    }
    assert b * w == (b - 1) * w + w;
  }

  lemma DivModUnique(x: nat, w: nat, q: nat, r: nat)
    requires r < w && x == q * w + r
    ensures x / w == q && x % w == r
  {
    var q', r' := x / w, x % w;
    assert x == q' * w + r';
    if q' > q {
      MulLess(q, q', w);
    } else if q' < q {
      MulLess(q', q, w);
    }
  }

  /** The flat index of the first cell of row r: the cells of rows 0..r-1. */
  function RowStart<T>(C: seq<seq<T>>, r: nat): nat
    requires r <= |C|
  {
    if r == 0 then 0 else RowStart(C, r - 1) + |C[r - 1]|
  }

  lemma {:induction false} RowStartPrefix<T>(C: seq<seq<T>>, n: nat, r: nat)
    requires r <= n <= |C|
    ensures RowStart(C[..n], r) == RowStart(C, r)
  {
    if r > 0 {
      RowStartPrefix(C, n, r - 1);
      assert C[..n][r - 1] == C[r - 1];
    }
  }

  lemma {:induction false} FlattenLength<T>(C: seq<seq<T>>)
    ensures |Flatten(C)| == RowStart(C, |C|)
  {
    if C != [] {
      var n := |C| - 1;
      FlattenLength(C[..n]);
      RowStartPrefix(C, n, n);
    }
  }

  /** Cell (r, c) sits at flat index RowStart(C, r) + c. */
  lemma {:induction false} FlattenCell<T>(C: seq<seq<T>>, r: nat, c: nat)
    requires IsCell(C, r, c)
    ensures RowStart(C, r) + c < |Flatten(C)| && Flatten(C)[RowStart(C, r) + c] == C[r][c]
  {
    var n := |C| - 1;
    var front := C[..n];
    FlattenLength(front);
    FlattenLength(C);
    RowStartPrefix(C, n, n);
    if r < n {
      RowStartPrefix(C, n, r);
      RowStartGrows(C, r, n);
      FlattenCell(front, r, c);
      assert front[r] == C[r];
    }
  }

  /** Each row starts after all cells of the rows above it. */
  lemma {:induction false} RowStartGrows<T>(C: seq<seq<T>>, r1: nat, r2: nat)
    requires r1 < r2 <= |C|
    ensures RowStart(C, r1) + |C[r1]| <= RowStart(C, r2)
    decreases r2
  {
    if r1 + 1 < r2 {
      RowStartGrows(C, r1, r2 - 1);
    }
  }

  /** Row-major order on cells is the order of their flat indices. */
  lemma IndexOrder<T>(C: seq<seq<T>>, r1: nat, c1: nat, r2: nat, c2: nat)
    requires IsCell(C, r1, c1) && IsCell(C, r2, c2)
    requires CellBefore(r1, c1, r2, c2)
    ensures RowStart(C, r1) + c1 < RowStart(C, r2) + c2
  {
    if r1 < r2 {
      RowStartGrows(C, r1, r2);
    }
  }

  /** Every flat index belongs to some cell. */
  lemma {:induction false} IndexCell<T>(C: seq<seq<T>>, m: nat) returns (r: nat, c: nat)
    requires m < |Flatten(C)|
    ensures IsCell(C, r, c) && m == RowStart(C, r) + c
  {
    var n := |C| - 1;
    var front := C[..n];
    FlattenLength(front);
    FlattenLength(C);
    RowStartPrefix(C, n, n);
    if m < |Flatten(front)| {
      r, c := IndexCell(front, m);
      RowStartPrefix(C, n, r);
    } else {
      r, c := n, m - RowStart(C, n);
    }
  }

  /** In a matrix of width w, row r starts at r * w. */
  lemma {:induction false} RowStartRect<T>(C: seq<seq<T>>, w: nat, r: nat)
    requires IsRect(C, w) && r <= |C|
    ensures RowStart(C, r) == r * w
  {
    if r > 0 {
      RowStartRect(C, w, r - 1);
      assert r * w == (r - 1) * w + w;
    }
  }

  /** unravel_index maps the flat index of a cell back to that cell. */
  lemma UnravelIndex<T>(C: seq<seq<T>>, w: nat, r: nat, c: nat)
    requires IsRect(C, w) && IsCell(C, r, c)
    ensures w > 0 && Unravel(RowStart(C, r) + c, w) == (r, c)
  {
    RowStartRect(C, w, r);
    DivModUnique(r * w + c, w, r, c);
  }

  /** numpy's flat argmax followed by unravel_index selects exactly the
      cell `IsArgMaxCell` describes. */
  lemma ArgMaxSelectsCell(C: seq<seq<Score>>, w: nat)
    requires IsRect(C, w) && |C| > 0 && w > 0
    ensures ArgMax(Flatten(C)).Ok?
    ensures IsArgMaxCell(C, Unravel(ArgMax(Flatten(C)).value, w).0, Unravel(ArgMax(Flatten(C)).value, w).1)
  {
    FlattenCell(C, 0, 0);
    var k := ArgMax(Flatten(C)).value;
    var r, c := IndexCell(C, k);
    UnravelIndex(C, w, r, c);
    if MatrixHasNaN(C) {
      FirstNaNCell(C, k, r, c);
    } else {
      FirstMaxCell(C, k, r, c);
    }
  }

  lemma FirstNaNCell(C: seq<seq<Score>>, k: nat, r: nat, c: nat)
    requires IsCell(C, r, c) && k == RowStart(C, r) + c
    requires IsArgMax(Flatten(C), k) && MatrixHasNaN(C)
    ensures IsArgMaxCell(C, r, c)
  {
    var a := Flatten(C);
    FlattenCell(C, r, c);
    var r0, c0 :| IsCell(C, r0, c0) && C[r0][c0].NaN?;
    FlattenCell(C, r0, c0);
    assert HasNaN(a);
    forall r', c' | IsCell(C, r', c') && CellBefore(r', c', r, c)
      ensures C[r'][c'].Num?
    {
      IndexOrder(C, r', c', r, c);
      FlattenCell(C, r', c');
    }
  }

  lemma FirstMaxCell(C: seq<seq<Score>>, k: nat, r: nat, c: nat)
    requires IsCell(C, r, c) && k == RowStart(C, r) + c
    requires IsArgMax(Flatten(C), k) && !MatrixHasNaN(C)
    ensures IsArgMaxCell(C, r, c)
  {
    var a := Flatten(C);
    FlattenCell(C, r, c);
    assert !HasNaN(a) by {
      forall m | 0 <= m < |a|
        ensures a[m].Num?
      {
        var rm, cm := IndexCell(C, m);
        FlattenCell(C, rm, cm);
      }
    }
    forall r', c' | IsCell(C, r', c')
      ensures AtMost(C[r'][c'], C[r][c])
    {
      FlattenCell(C, r', c');
    }
    forall r', c' | IsCell(C, r', c') && CellBefore(r', c', r, c)
      ensures !AtMost(C[r][c], C[r'][c'])
    {
      IndexOrder(C, r', c', r, c);
      FlattenCell(C, r', c');
    }
  }

  /** The NaN-skipping flat argmax, unravelled, selects exactly the cell
      `IsNanArgMaxCell` describes, and fails only when every cell is NaN. */
  lemma NanArgMaxSelectsCell(C: seq<seq<Score>>, w: nat)
    requires IsRect(C, w)
    ensures NanArgMax(Flatten(C)).Err? <==> forall r, c :: IsCell(C, r, c) ==> C[r][c].NaN?
    ensures NanArgMax(Flatten(C)).Ok? ==>
      w > 0 && IsNanArgMaxCell(C, Unravel(NanArgMax(Flatten(C)).value, w).0, Unravel(NanArgMax(Flatten(C)).value, w).1)
  {
    var a := Flatten(C);
    if NanArgMax(a).Ok? {
      var k := NanArgMax(a).value;
      var r, c := IndexCell(C, k);
      FlattenCell(C, r, c);
      UnravelIndex(C, w, r, c);
      forall r', c' | IsCell(C, r', c') && C[r'][c'].Num?
        ensures C[r'][c'].value <= C[r][c].value
      {
        FlattenCell(C, r', c');
      }
      forall r', c' | IsCell(C, r', c') && C[r'][c'].Num? && CellBefore(r', c', r, c)
        ensures C[r'][c'].value < C[r][c].value
      {
        IndexOrder(C, r', c', r, c);
        FlattenCell(C, r', c');
      }
    } else {
      forall r, c | IsCell(C, r, c)
        ensures C[r][c].NaN?
      {
        FlattenCell(C, r, c);
      }
    }
  }

  /** The selection is well defined: at most one cell satisfies it. */
  lemma ArgMaxCellUnique(C: seq<seq<Score>>, r1: int, c1: int, r2: int, c2: int)
    requires IsArgMaxCell(C, r1, c1) && IsArgMaxCell(C, r2, c2)
    ensures r1 == r2 && c1 == c2
  {
  }

  lemma NanArgMaxCellUnique(C: seq<seq<Score>>, r1: int, c1: int, r2: int, c2: int)
    requires IsNanArgMaxCell(C, r1, c1) && IsNanArgMaxCell(C, r2, c2)
    ensures r1 == r2 && c1 == c2
  {
  }
}

=== FILE: statistics.dfy ===
/** Exact integer forms of the quantities `np.cov` computes before dividing:
    the sum of a row and its spread, the squared deviations from the mean
    scaled by n^2 so that they stay integers. */
module Statistics {

  function Sum(x: seq<int>): int
  {
    if |x| == 0 then 0 else x[0] + Sum(x[1..])
  }

  /** The sum over x of (n * x[i] - s)^2. It is never negative. */
  function SquaredDeviations(x: seq<int>, n: int, s: int): (r: int)
    ensures r >= 0
  {
    if |x| == 0 then 0
    else
      Square(n * x[0] - s) + SquaredDeviations(x[1..], n, s)
  }

  function Square(a: int): (r: int)
    ensures r >= 0
    ensures r == 0 <==> a == 0
  {
    SquarePositive(a);
    a * a
  }

  lemma SquarePositive(a: int)
    ensures a * a >= 0
    ensures a * a == 0 <==> a == 0
  {
    if a < 0 {
      assert a * a == (-a) * (-a);
    }
  }

  /** n^2 times the sum of squared deviations from the mean, which is
      n^2 (n - 1) times the sample variance `np.cov` divides by. */
  function Spread(x: seq<int>): (r: int)
    ensures r >= 0
  {
    SquaredDeviations(x, |x|, Sum(x))
  }

  /** The squared deviations vanish exactly when every term does. */
  lemma {:induction false} SquaredDeviationsZero(x: seq<int>, n: int, s: int)
    ensures SquaredDeviations(x, n, s) == 0 <==> forall i :: 0 <= i < |x| ==> n * x[i] == s
  {
    if |x| > 0 {
      SquaredDeviationsZero(x[1..], n, s);
      assert forall i :: 1 <= i < |x| ==> x[1..][i - 1] == x[i];
    }
  }

  /** A row holding only c sums to |x| * c. */
  lemma {:induction false} SumConst(x: seq<int>, c: int)
    requires forall i :: 0 <= i < |x| ==> x[i] == c
    ensures Sum(x) == |x| * c
  {
    if |x| > 0 {
      SumConst(x[1..], c);
    }
  }

  lemma MulCancel(n: int, a: int, b: int)
    requires n > 0 && n * a == n * b
    ensures a == b
  {
    assert n * (a - b) == n * a - n * b == 0;
  }
}

=== FILE: traces.dfy ===
/** `genEMTraces`: a synthetic trace matrix, one row per time sample and one
    column per plaintext, made of uniform noise plus the real key's leakage. */
module Traces {
  import opened Bits
  import opened Results
  import opened Hypothesis
  import Hamming

  /** What `np.random.randint(noiseLevel, size=(duration, n))` can return:
      a duration x n matrix of integers in [0, noiseLevel). */
  predicate IsNoise(noise: Matrix, duration: nat, n: nat, noiseLevel: int)
  {
    && |noise| == duration
    && forall t :: 0 <= t < duration ==>
         |noise[t]| == n && forall i :: 0 <= i < n ==> 0 <= noise[t][i] < noiseLevel
  }

  /** T is the noise with the leakage of key byte j added to time row j of
      every plaintext's column; the rows past the key are the noise alone. */
  predicate IsTraceMatrix(key: seq<Byte>, p: seq<seq<Byte>>, noise: Matrix, T: Matrix)
  {
    && |noise| == |T|
    && (|p| > 0 ==> |key| <= |T|)
    && CoversWidth(p, |key|)
    && (forall t :: 0 <= t < |T| ==> |T[t]| == |noise[t]| == |p|)
    && (forall j, i :: 0 <= j < |key| && 0 <= i < |p| ==>
          T[j][i] == noise[j][i] + Leakage(p[i][j], key[j]))
    && (forall t :: |key| <= t < |T| ==> T[t] == noise[t])
  }

  /** One past the largest int64, randint's default sample type. */
  const Int64Bound: int := 0x8000_0000_0000_0000

  /** numpy's randint rejects an exclusive bound below 1, and one above
      2^63 since its largest sample would not fit an int64, but only when
      it has samples to draw: a size with no cells yields an empty array
      whatever the bound. */
  predicate NoiseFails(duration: nat, n: nat, noiseLevel: int)
  {
    (noiseLevel < 1 || noiseLevel > Int64Bound) && duration > 0 && n > 0
  }

  /** The source's loops over plaintexts and key bytes, adding each leakage
      in place into the noise matrix. Python fails on an index past the
      trace duration or past a plaintext's width only once some plaintext
      exists; randint fails on a noise level outside [1, 2^63] before
      anything, when the trace matrix has cells. */
  method GenEMTraces(key: seq<Byte>, p: seq<seq<Byte>>, duration: nat, noiseLevel: int, noise: Matrix)
    returns (r: Result<Matrix>)
    requires !NoiseFails(duration, |p|, noiseLevel) ==> IsNoise(noise, duration, |p|, noiseLevel)
    ensures NoiseFails(duration, |p|, noiseLevel) ==> r == Err(InvalidNoiseLevel)
    ensures !NoiseFails(duration, |p|, noiseLevel) ==>
      (r.Err? <==> |p| > 0 && (duration < |key| || !CoversWidth(p, |key|)))
    ensures r.Err? && !NoiseFails(duration, |p|, noiseLevel) ==> r.error == IndexOutOfRange
    ensures r.Ok? ==> IsTraceMatrix(key, p, noise, r.value)
    ensures r.Ok? ==> forall t, i :: 0 <= t < duration && 0 <= i < |p| ==>
      0 <= r.value[t][i] <= noiseLevel - 1 + 8
  {
    if NoiseFails(duration, |p|, noiseLevel) {
      return Err(InvalidNoiseLevel);
    }
    var T := noise;
    for i := 0 to |p|
      invariant |T| == duration && forall t :: 0 <= t < duration ==> |T[t]| == |p|
      invariant i > 0 ==> |key| <= duration
      invariant forall c :: 0 <= c < i ==> |key| <= |p[c]|
      invariant forall t, c :: 0 <= t < |key| && 0 <= c < i ==>
        T[t][c] == noise[t][c] + Leakage(p[c][t], key[t])
      invariant forall t, c :: 0 <= t < duration && i <= c < |p| ==> T[t][c] == noise[t][c]
      invariant forall t, c :: |key| <= t < duration && 0 <= c < |p| ==> T[t][c] == noise[t][c]
    {
      var column := AddColumnLeakage(key, p[i], i, T);
      if column.Err? {
        return column;
      }
      T := column.value;
    }
    forall t | |key| <= t < duration
      ensures T[t] == noise[t]
    {
      assert |T[t]| == |noise[t]|;
      forall c | 0 <= c < |p|
        ensures T[t][c] == noise[t][c]
      {
      }
    }
    r := Ok(T);
    TraceRange(key, p, noise, T, noiseLevel);
  }

  /** The inner loop for plaintext i: add the leakage of key byte j into
      cell (j, i) for every key byte j, failing on the first index past
      the plaintext's width or the trace duration. */
  method AddColumnLeakage(key: seq<Byte>, plain: seq<Byte>, i: nat, T: Matrix) returns (r: Result<Matrix>)
    requires forall t :: 0 <= t < |T| ==> i < |T[t]|
    ensures r.Err? <==> |plain| < |key| || |T| < |key|
    ensures r.Err? ==> r.error == IndexOutOfRange
    ensures r.Ok? ==> |r.value| == |T| && forall t :: 0 <= t < |T| ==> |r.value[t]| == |T[t]|
    ensures r.Ok? ==> forall t :: 0 <= t < |key| ==> r.value[t][i] == T[t][i] + Leakage(plain[t], key[t])
    ensures r.Ok? ==> forall t, c :: 0 <= t < |T| && 0 <= c < |T[t]| && (c != i || |key| <= t) ==>
      r.value[t][c] == T[t][c]
  {
    var U := T;
    for j := 0 to |key|
      invariant j <= |plain| && j <= |T|
      invariant |U| == |T| && forall t :: 0 <= t < |T| ==> |U[t]| == |T[t]|
      invariant forall t :: 0 <= t < j ==> U[t][i] == T[t][i] + Leakage(plain[t], key[t])
      invariant forall t, c :: 0 <= t < |T| && 0 <= c < |T[t]| && (c != i || j <= t) ==> U[t][c] == T[t][c]
    {
      if j >= |plain| || j >= |T| {
        return Err(IndexOutOfRange);
      }
      ByteXor(plain[j], key[j]);
      var hw := Hamming.GetHammingWeight(Xor(plain[j], key[j]));
      U := U[j := U[j][i := U[j][i] + hw]];
    }
    r := Ok(U);
  }

  /** With noise in [0, noiseLevel) every sample lies in [0, noiseLevel - 1 + 8]. */
  lemma TraceRange(key: seq<Byte>, p: seq<seq<Byte>>, noise: Matrix, T: Matrix, noiseLevel: int)
    requires IsNoise(noise, |noise|, |p|, noiseLevel)
    requires IsTraceMatrix(key, p, noise, T)
    ensures forall t, i :: 0 <= t < |T| && 0 <= i < |p| ==> 0 <= T[t][i] <= noiseLevel - 1 + 8
  {
    forall t, i | 0 <= t < |T| && 0 <= i < |p|
      ensures 0 <= T[t][i] <= noiseLevel - 1 + 8
    {
      if t < |key| {
        ByteXor(p[i][t], key[t]);
      }
    }
  }

  /** Row j of the traces is the noise plus row key[j] of hypothesis matrix
      j: the generator and the hypothesis builder share one leakage model. */
  lemma TraceIsNoisePlusHypothesis(key: seq<Byte>, p: seq<seq<Byte>>, noise: Matrix, T: Matrix,
                                   j: nat, H: Matrix)
    requires IsTraceMatrix(key, p, noise, T)
    requires j < |key| <= |T| && IsHypoMatrix(p, j, H)
    ensures |T[j]| == |H[key[j]]| == |p|
    ensures forall i :: 0 <= i < |p| ==> T[j][i] == noise[j][i] + H[key[j]][i]
  {
    forall i | 0 <= i < |p|
      ensures T[j][i] == noise[j][i] + H[key[j]][i]
    {
      assert H[key[j]][i] == Leakage(p[i][j], key[j]);
    }
  }

  /** A noise level of 1 leaves no choice: every noise sample is 0. */
  lemma UnitNoiseIsZero(noise: Matrix, duration: nat, n: nat)
    requires IsNoise(noise, duration, n, 1)
    ensures forall t :: 0 <= t < duration ==> noise[t] == seq(n, _ => 0)
  {
    forall t | 0 <= t < duration
      ensures noise[t] == seq(n, _ => 0)
    {
      assert forall i :: 0 <= i < n ==> noise[t][i] == 0;
    }
  }

  /** Without noise, trace row j is exactly row key[j] of hypothesis matrix
      j, and every later row is all zeros. */
  lemma NoiselessTraceMatchesHypothesis(key: seq<Byte>, p: seq<seq<Byte>>, noise: Matrix, T: Matrix,
                                        Hs: seq<Matrix>)
    requires IsNoise(noise, |noise|, |p|, 1)
    requires IsTraceMatrix(key, p, noise, T) && |key| <= |T|
    requires |Hs| == |key| && forall j :: 0 <= j < |key| ==> IsHypoMatrix(p, j, Hs[j])
    ensures forall j :: 0 <= j < |key| ==> |Hs[j]| == 256 && T[j] == Hs[j][key[j]]
    ensures forall t :: |key| <= t < |T| ==> T[t] == seq(|p|, _ => 0)
  {
    UnitNoiseIsZero(noise, |noise|, |p|);
    forall j | 0 <= j < |key|
      ensures T[j] == Hs[j][key[j]]
    {
      TraceIsNoisePlusHypothesis(key, p, noise, T, j, Hs[j]);
      assert forall i :: 0 <= i < |p| ==> noise[j][i] == 0;
    }
  }
}
